=== FILE: README.md ===
# Operator intervention dashboard — a Dafny model

`dashboard2.py` is a Streamlit page for auditing operators' field
interventions. The analyst loads the intervention sheet, picks an operator,
a date column and a period kind (Jour, Semaine, Mois, Trimestre, Année,
Personnalisé) with its date(s), and presses "Analyser". The page then shows:

- how many of the operator's rows have a date in the resolved range;
- two of those rows, drawn at random, or a "not enough data" message;
- a bar chart of the number of rows per date;
- the operator's rows from the result sheet `resultat_par_<period>.xlsx`,
  or a message that the operator has none or that the sheet is missing.

This project models that pipeline and proves what it does.

| module | file | what it models |
|---|---|---|
| `Calendar` | `calendar.dfy` | Python `date` values: the proleptic Gregorian calendar, years 1 to 9999, `toordinal`, `weekday`, and `date ± timedelta` with its `OverflowError` |
| `Periods` | `periods.dfy` | how a period kind and its entered date(s) become `date_debut`/`date_fin`, including the dates pre-filled from today |
| `Masking` | `masking.dfy` | `df[mask]`: the rows a boolean mask keeps, in order |
| `Records` | `records.dfy` | `filtrer_donnees` |
| `Tally` | `tally.dfy` | `groupby(date).size()` behind the chart |
| `Sampling` | `sampling.dfy` | the two-row random draw and its guard |
| `CrossRef` | `crossref.dfy` | the result-sheet lookup |
| `Dashboard` | `dashboard.dfy` | one press of "Analyser", end to end |

Dates are modelled as triples. Each triple is tied to Python's day ordinal,
which is the reference for "n days later". Date comparison in the code is
field by field, and `Calendar.OrdinalOrder` proves that this agrees with
comparing ordinals. Leaving the year range 1 to 9999 is an explicit `Err(Overflow)` result.
A range end that no pandas `Timestamp` can hold is an explicit
`Err(OutOfBoundsDatetime)` result.

A reader might expect some of the ranges to be calendar periods, or the lookup
to show one row. The model follows what the code does:

- **Start dates are not normalised.** The entered start date is used as given. For a
  month it need not be the 1st, and for a year it need not be January 1. The
  end depends only on the start's month (Mois, Trimestre) or year (Année).
- **The week starts on the entered date.** The range is the seven days from
  that date, whatever day of the week it is. `Dashboard.MidWeekStartMissesMonday`
  shows that, in any sheet, rows on the Monday of a week entered at a later weekday are not kept.
- **The quarter end is relative to the start.** It is the last day of the month
  two months after the start's month, not the end of the calendar quarter
  holding the start. A November start ends on January 31 of the next year.
- **The pre-filled dates give calendar periods.** Only with the dates pre-filled
  from today does the range become the calendar week, month, quarter or year
  holding today. This is proved separately for each kind.
- **The lookup shows every matching row.** The result-sheet lookup shows all
  rows with the operator's exact name, not only the first.

## Model

| member | source | states |
|---|---|---|
| Calendar.Weekday | dashboard2.py:37 | the weekday is in 0..6, with Monday as 0, and agrees with the day ordinal modulo 7, as Python's `date.weekday()` does |
| Calendar.OrdinalOrder | dashboard2.py:14 | comparing two dates field by field (how `>=` and `<=` on dates work) is the same as comparing their day ordinals; two dates are equal iff their ordinals are |
| Calendar.AddDays | dashboard2.py:38 | the date n days later is a real calendar date whose ordinal is exactly n more |
| Calendar.SubDays | dashboard2.py:41 | the date n days earlier is a real calendar date whose ordinal is exactly n less |
| Calendar.PlusDays | dashboard2.py:38 | `d + timedelta(days=n)` succeeds iff the result does not pass 9999-12-31, and then it is a valid date exactly n days later; otherwise it is an overflow |
| Calendar.MinusDays | dashboard2.py:41 | `d - timedelta(days=n)` succeeds iff the result is not before 0001-01-01, and then it is a valid date exactly n days earlier |
| Calendar.WithDayOne | dashboard2.py:41 | `replace(day=1)` keeps year and month, gives a valid date, and never moves later |
| Periods.DayRange | dashboard2.py:34-35 | a day resolves to a range that starts on it and holds that day and no other |
| Periods.WeekRange | dashboard2.py:36-38 | a week resolves iff start + 6 days stays in the calendar; then it starts on the entered date, ends 6 days later, and holds exactly the dates whose ordinal is within those 7 days |
| Periods.JumpOneMonth | dashboard2.py:41 | 32 days after the first of a month lands in the next month |
| Periods.JumpThreeMonths | dashboard2.py:45 | 93 days after the first of a month lands on day 2 to 5 of the month three months later, the day being 94 less the lengths of the three months crossed |
| Periods.RollingMonthEnd | dashboard2.py:41-45 | `(start.replace(day=1) + timedelta(days=n)).replace(day=1) - timedelta(days=1)` is, when it does not overflow, the last day of some calendar month; its only failure is an overflow |
| Periods.Resolve | dashboard2.py:34-51 | every kind's range starts on the entered date and ends on a valid date; only week, month and quarter can fail, and only with an overflow |
| Periods.MonthEndIsLastDayOfMonth | dashboard2.py:41 | the month formula yields the last calendar day of the start's month, and overflows only for a December 9999 start |
| Periods.MonthRange | dashboard2.py:39-41 | a month runs from the entered date to the last day of its month, or overflows for December 9999; it holds exactly the days of that month from the entered day on |
| Periods.QuarterEndIsTwoMonthsLater | dashboard2.py:45 | the quarter formula yields the last day of the month two months after the start's month, and overflows only for October to December 9999 |
| Periods.QuarterRange | dashboard2.py:42-45 | a quarter runs from the entered date to the last day of the month two months on, or overflows for starts from October 9999 |
| Periods.QuarterSpansThreeMonths | dashboard2.py:45 | a quarter that resolves holds exactly the dates from the entered one through the end of the month two months later |
| Periods.YearRange | dashboard2.py:46-48 | a year runs from the entered date to December 31 of its year, a valid date; it holds exactly the dates of that year from the entered one on |
| Periods.CustomRange | dashboard2.py:49-51 | a custom period keeps both entered dates unchanged and holds the dates whose ordinal lies between theirs; with the end before the start it holds no date |
| Periods.ResolvedRangeIsOrdered | dashboard2.py:34-48 | every kind except custom starts on the entered date and, when it resolves, ends on a valid date no earlier than its start |
| Periods.MondayOf | dashboard2.py:37 | `today - timedelta(days=today.weekday())` is a valid Monday, at most 6 days before today, never after it |
| Periods.QuarterStart | dashboard2.py:43-44 | the pre-filled quarter start is the 1st of January, April, July or October of today's year, within the three months before today's month |
| Periods.DefaultSelection | dashboard2.py:32-51 | the dates pre-filled from today are valid dates for the chosen kind |
| Periods.DefaultWeekHoldsToday | dashboard2.py:36-38 | whenever the pre-filled week resolves, it starts on a Monday and holds today |
| Periods.DefaultMonthIsCalendarMonth | dashboard2.py:39-41 | the pre-filled month is the 1st to the last day of today's month, holds today, and fails only in December 9999 |
| Periods.DefaultQuarterIsCalendarQuarter | dashboard2.py:42-45 | the pre-filled quarter is today's calendar quarter, holds today, and fails only from October 9999 |
| Periods.QuarterHoldsToday | dashboard2.py:42-45 | today lies between the 1st of its calendar quarter and the last day of that quarter's third month |
| Periods.DefaultYearIsCalendarYear | dashboard2.py:46-48 | the pre-filled year is January 1 to December 31 of today's year and holds today |
| Periods.DefaultRangeHoldsToday | dashboard2.py:32-51 | whatever the kind, the pre-filled range holds today whenever it resolves |
| Periods.MarchEndsOnThe31st | dashboard2.py:41 | a month entered in March ends on March 31 |
| Periods.FebruaryEndsOnLeapDay | dashboard2.py:41 | a month entered in February ends on the 29th in leap years and the 28th otherwise, including 1900 and 2000 |
| Periods.QuarterOfMay | dashboard2.py:43-45 | in May the pre-filled quarter starts April 1 and ends June 30 |
| Periods.QuarterFromOctober | dashboard2.py:45 | a quarter entered in October ends December 31 |
| Periods.QuarterFromNovember | dashboard2.py:45 | a quarter entered in November ends January 31 of the next year |
| Periods.QuarterFromDecember | dashboard2.py:45 | a quarter entered in December ends on the last day of February of the next year |
| Masking.Mask | dashboard2.py:15 | `df[mask]` keeps only rows passing the mask, keeps every such row, and adds none |
| Masking.MaskFollowsKeptIndices | dashboard2.py:15 | the k-th selected row is the row at the k-th position the mask keeps, so order is preserved |
| Masking.MaskIdempotent | dashboard2.py:15 | applying the same mask twice selects the same rows as once |
| Records.ReloadRoundTrip | dashboard2.py:11 | reading the date-only rows back as midnight timestamps and converting them again gives back the same rows |
| Records.TimeOfDayIgnored | dashboard2.py:11-14 | sheets that differ only in the time of day of their timestamps filter to the same rows |
| Records.LastDayKeptAtAnyTime | dashboard2.py:11-14 | in any sheet, every row of the operator stamped at any time on the last day of a non-empty range is kept |
| Records.FilterRows | dashboard2.py:10-15 | every kept row has the operator's exact name and a date in the inclusive range; every such row is kept; nothing else appears |
| Records.FilterSelectsMatchingRowsInOrder | dashboard2.py:14-15 | the filtered table is exactly the matching rows in sheet order: a row's position is selected iff the row matches |
| Records.FilterData | dashboard2.py:10-15 | the filter succeeds iff both range ends fit a pandas `Timestamp`, otherwise it fails with `OutOfBoundsDatetime`; on success its value is the filtered table, so every matching row is kept once, in sheet order, and no other row is |
| Records.FilterIdempotent | dashboard2.py:10-15 | filtering the filtered rows again with the same operator and range changes nothing |
| Records.InvertedRangeKeepsNothing | dashboard2.py:14 | a range whose end precedes its start keeps no row |
| Records.EarlierRowsExcluded | dashboard2.py:14 | in any sheet, no row dated before the range start is kept, whoever it belongs to; a sheet of only such rows filters to nothing |
| Records.OtherOperatorsExcluded | dashboard2.py:14 | in any sheet, no row of another operator is kept, whatever its date; a sheet without the operator filters to nothing |
| Tally.CountByDate | dashboard2.py:66 | the chart table has one bucket per distinct filtered date, in ascending date order, each counting exactly that date's rows; the counts add up to the number of rows |
| Tally.ChartCountsEachDate | dashboard2.py:66 | each bar is at least 1 and equals the number of filtered rows with its date |
| Sampling.DrawTwo | dashboard2.py:58-63 | the "not enough data" branch is taken iff fewer than 2 rows are left; otherwise two distinct positions within the table are drawn |
| Sampling.EveryPairCanBeDrawn | dashboard2.py:59 | every ordered pair of distinct positions is drawn by some value of the random source |
| CrossRef.Lower | dashboard2.py:71 | lowering keeps the length, leaves no upper-case letter, keeps every other character, and maps each upper-case letter to its lower-case one |
| CrossRef.LowerIdempotent | dashboard2.py:71 | lowering an already lowered text changes nothing |
| CrossRef.ResultFileName | dashboard2.py:71 | the sheet name is `resultat_par_`, then the selector's label with every letter in lower case, then `.xlsx` |
| CrossRef.ResultFileNamesDiffer | dashboard2.py:71 | different period kinds look up different result sheets |
| CrossRef.LookupOperator | dashboard2.py:70-80 | a missing sheet is reported as missing; "no data" is reported iff the sheet has no row with the operator's exact name; otherwise every such row is shown, in order |
| CrossRef.LookupShowsEveryMatchingRow | dashboard2.py:72-76 | when the result sheet exists, every row with the operator's exact name is shown, and the shown rows are exactly those rows in sheet order |
| Dashboard.Analyse | dashboard2.py:53-80 | the analysis succeeds iff the period resolves and both range ends fit a pandas `Timestamp`; an unresolved period is an overflow, and a range outside the `Timestamp` span is `OutOfBoundsDatetime`; on success the kept rows are the filtered table, the count printed is its length, the draw, chart and lookup are those of the draw, the per-date count and the result-sheet lookup on that table, so each carries its own guarantees: the draw happens iff there are at least 2 rows, the bars cover exactly the kept dates and add up to the count, and the sheet looked up is the one named after the period kind |
| Dashboard.YearsPast2262AreOutOfBounds | dashboard2.py:12-13 | a year entered after 2262 resolves but stops the analysis with `OutOfBoundsDatetime` |
| Dashboard.EarlyStartIsOutOfBounds | dashboard2.py:12-13 | a start before 1677-09-22 always stops the analysis, with `OutOfBoundsDatetime` whenever the period resolves |
| Dashboard.WeekFits | dashboard2.py:36-38 | a week within the `Timestamp` span resolves, both its ends fit, and it ends six days after the start |
| Dashboard.WholeWeekIsCounted | dashboard2.py:36-66 | with a week within the `Timestamp` span and all of the operator's rows within its seven days, the filter keeps every row and counts them all, and the draw happens iff there are at least 2 |
| Dashboard.MidWeekStartMissesMonday | dashboard2.py:37-38 | with a start after Monday, the week resolves and, whatever the sheet, no kept row is dated on that week's Monday; a sheet of only Monday rows counts 0 |
| Dashboard.AbsentOperatorGetsNothing | dashboard2.py:54-66 | an operator with no rows gets a count of 0, no draw and an empty chart |

## Left out

- The Streamlit page itself (title, widgets, buttons, the "show all data" checkbox of lines 82-83) and the Plotly chart rendering: the model stops at the data each widget shows.
- Reading workbooks (`charger_donnees`, lines 6-8). The intervention sheet is a sequence of rows. The result workbooks are a map from file name to rows, and a name absent from the map is the `FileNotFoundError` branch.
- The operator list (`unique()`, line 24) and the choice of date column (line 27): the operator and the column's values are inputs.
- `datetime.now()` (line 32) is the parameter `today`. The random generator behind `sample(n=2)` is the pair `pick`/`skip`.
- `pd.to_datetime` parsing of the sheet's cells (line 11): cells are assumed to be already-parsed timestamps, hence within the `Timestamp` span. Unparseable or missing cells, which make pandas raise or yield `NaT`, are not modelled. The conversion of `date_debut`/`date_fin` (lines 12-13) is modelled as the span check of nanosecond timestamps (1677-09-22 to 2262-04-11 at midnight), pandas' default unit; other units are not modelled.
- The in-place rewrite of the sheet's date column by `filtrer_donnees` (line 11): the model returns the converted rows instead of mutating shared state.
- `str.lower` on the period labels is modelled for ASCII letters only. The labels' accented letters are already lower case, so the file names are unaffected.
- Missing operator names (NaN cells, lines 14 and 73) are not modelled: pandas never matches NaN, not even when it is the operator selected, so such an operator gets a count of 0 and "no data"; in the model every name is a string and a row always matches its own name.
- A result sheet without a "Prénom et nom" column (a `KeyError`) is not modelled. Neither are the texts of the messages shown.
- The exact timing of the overflow: for Week, Month and Quarter, an end date beyond year 9999 makes the page stop before "Analyser" is shown. `Dashboard.Analyse` returns the overflow instead.
- Sampling.DrawTwo: states which positions can be drawn, not their probability distribution.

=== FILE: calendar.dfy ===
/**
 * Calendar dates as Python's `datetime.date` represents them: the proleptic
 * Gregorian calendar, years 1 through 9999, and the day ordinal that
 * `date.toordinal()` returns (0001-01-01 is day 1).
 *
 * The ordinal is the reference definition of "n days later": `AddDays` and
 * `SubDays` walk month by month, and their contracts tie each step to the
 * ordinal. The lexicographic order on (year, month, day), which is how
 * `date` objects compare, is proved to agree with the ordinal order.
 */
module Calendar {

  /** A day of the calendar. Which triples are real dates is `IsCalendarDate`. */
  datatype Date = Date(year: int, month: int, day: int)

  /** An inclusive range of days, both ends as the caller gave them. */
  datatype DateRange = DateRange(start: Date, end: Date)

  /**
   * The errors the dashboard's date handling can raise: Python's
   * `OverflowError` when date arithmetic leaves years 1 to 9999, and pandas'
   * `OutOfBoundsDatetime` when a date does not fit a nanosecond `Timestamp`.
   */
  datatype DateError = Overflow | OutOfBoundsDatetime

  datatype Result<T> = Ok(value: T) | Err(error: DateError)

  /** `datetime.MINYEAR` and `datetime.MAXYEAR`. */
  const MinYear: int := 1
  const MaxYear: int := 9999

  predicate IsLeapYear(y: int) {
    y % 4 == 0 && (y % 100 != 0 || y % 400 == 0)
  }

  function DaysInMonth(y: int, m: int): (n: int)
    requires 1 <= m <= 12
    ensures 28 <= n <= 31
  {
    if m == 2 then (if IsLeapYear(y) then 29 else 28)
    else if m == 4 || m == 6 || m == 9 || m == 11 then 30
    else 31
  }

  function DaysInYear(y: int): int {
    if IsLeapYear(y) then 366 else 365
  }

  /** A triple naming a real day of the (unbounded) proleptic Gregorian calendar. */
  predicate IsCalendarDate(d: Date) {
    1 <= d.month <= 12 && 1 <= d.day <= DaysInMonth(d.year, d.month)
  }

  /** A value a Python `date` object can hold. */
  predicate IsPyDate(d: Date) {
    IsCalendarDate(d) && MinYear <= d.year <= MaxYear
  }

  /** How Python's `date` objects compare: year, then month, then day. */
  predicate Before(a: Date, b: Date) {
    a.year < b.year
    || (a.year == b.year && (a.month < b.month || (a.month == b.month && a.day < b.day)))
  }

  predicate AtOrBefore(a: Date, b: Date) {
    Before(a, b) || a == b
  }

  predicate InRange(d: Date, range: DateRange) {
    AtOrBefore(range.start, d) && AtOrBefore(d, range.end)
  }

  /** Days in the years before year `y`, counting from year 1. */
  function DaysBeforeYear(y: int): int {
    var p := y - 1;
    p * 365 + p / 4 - p / 100 + p / 400
  }

  /** Days in the months of year `y` before month `m`. */
  function DaysBeforeMonth(y: int, m: int): int
    requires 1 <= m <= 12
  {
    [0, 31, 59, 90, 120, 151, 181, 212, 243, 273, 304, 334][m - 1]
    + (if m > 2 && IsLeapYear(y) then 1 else 0)
  }

  /** `date.toordinal()`: 0001-01-01 is day 1. */
  function Ordinal(d: Date): int
    requires 1 <= d.month <= 12
  {
    DaysBeforeYear(d.year) + DaysBeforeMonth(d.year, d.month) + d.day
  }

  /** `date.weekday()`: Monday is 0 and Sunday is 6. */
  function Weekday(d: Date): (w: int)
    requires 1 <= d.month <= 12
    ensures 0 <= w < 7
    ensures (Ordinal(d) - w) % 7 == 1
  {
    (Ordinal(d) + 6) % 7
  }

  function LastDayOfMonth(y: int, m: int): Date
    requires 1 <= m <= 12
  {
    Date(y, m, DaysInMonth(y, m))
  }

  /** `d.replace(day=1)`. */
  function WithDayOne(d: Date): (r: Date)
    requires IsCalendarDate(d)
    ensures IsCalendarDate(r)
    ensures r.year == d.year && r.month == d.month && r.day == 1
    ensures AtOrBefore(r, d)
  {
    Date(d.year, d.month, 1)
  }

  // ---------------------------------------------------------------------
  // Facts about the day counts
  // ---------------------------------------------------------------------

  lemma MonthStep(y: int, m: int)
    requires 1 <= m < 12
    ensures DaysBeforeMonth(y, m + 1) == DaysBeforeMonth(y, m) + DaysInMonth(y, m)
  {
  }

  lemma DecemberStep(y: int)
    ensures DaysBeforeMonth(y, 12) + DaysInMonth(y, 12) == DaysInYear(y)
  {
  }

  /** A year contributes exactly its own length to the ordinal of the next year. */
  lemma YearStep(y: int)
    ensures DaysBeforeYear(y + 1) == DaysBeforeYear(y) + DaysInYear(y)
  {
    assert y / 4 - (y - 1) / 4 == (if y % 4 == 0 then 1 else 0);
    assert y / 100 - (y - 1) / 100 == (if y % 100 == 0 then 1 else 0);
    assert y / 400 - (y - 1) / 400 == (if y % 400 == 0 then 1 else 0);
    assert y % 400 == 0 ==> y % 100 == 0;
    assert y % 100 == 0 ==> y % 4 == 0;
  }

  lemma {:induction false} DaysBeforeYearGrows(a: int, b: int)
    requires a < b
    ensures DaysBeforeYear(a) + DaysInYear(a) <= DaysBeforeYear(b)
    decreases b - a
  {
    YearStep(a);
    if a + 1 < b {
      DaysBeforeYearGrows(a + 1, b);
    }
  }

  lemma {:induction false} DaysBeforeMonthGrows(y: int, a: int, b: int)
    requires 1 <= a < b <= 12
    ensures DaysBeforeMonth(y, a) + DaysInMonth(y, a) <= DaysBeforeMonth(y, b)
    decreases b - a
  {
    MonthStep(y, a);
    if a + 1 < b {
      DaysBeforeMonthGrows(y, a + 1, b);
    }
  }

  /** The last day of a date's year is at least as late in the ordinal as the date. */
  lemma OrdinalWithinYear(d: Date)
    requires IsCalendarDate(d)
    ensures Ordinal(d) <= DaysBeforeYear(d.year) + DaysInYear(d.year)
  {
    DecemberStep(d.year);
    if d.month < 12 {
      DaysBeforeMonthGrows(d.year, d.month, 12);
    }
  }

  lemma OrdinalFollowsBefore(a: Date, b: Date)
    requires IsCalendarDate(a) && IsCalendarDate(b)
    requires Before(a, b)
    ensures Ordinal(a) < Ordinal(b)
  {
    if a.year < b.year {
      OrdinalWithinYear(a);
      DaysBeforeYearGrows(a.year, b.year);
    } else if a.month < b.month {
      DaysBeforeMonthGrows(a.year, a.month, b.month);
    }
  }

  /**
   * Comparing dates field by field, as Python does, is comparing their
   * ordinals; in particular two real dates with the same ordinal are equal.
   */
  lemma OrdinalOrder(a: Date, b: Date)
    requires IsCalendarDate(a) && IsCalendarDate(b)
    ensures Before(a, b) <==> Ordinal(a) < Ordinal(b)
    ensures AtOrBefore(a, b) <==> Ordinal(a) <= Ordinal(b)
    ensures a == b <==> Ordinal(a) == Ordinal(b)
  {
    if Before(a, b) {
      OrdinalFollowsBefore(a, b);
    } else if a != b {
      assert Before(b, a);
      OrdinalFollowsBefore(b, a);
    }
  }

  // ---------------------------------------------------------------------
  // Moving by whole days
  // ---------------------------------------------------------------------

  /** The day after the last day of `d`'s month. */
  function FirstOfNextMonth(d: Date): (r: Date)
    requires IsCalendarDate(d)
    ensures IsCalendarDate(r) && r.day == 1
    ensures r.year * 12 + r.month == d.year * 12 + d.month + 1
    ensures Ordinal(r) == Ordinal(d) + (DaysInMonth(d.year, d.month) - d.day) + 1
  {
    if d.month == 12 then
      YearStep(d.year);
      DecemberStep(d.year);
      Date(d.year + 1, 1, 1)
    else
      MonthStep(d.year, d.month);
      Date(d.year, d.month + 1, 1)
  }

  /** The day before the first day of `d`'s month. */
  function LastOfPreviousMonth(d: Date): (r: Date)
    requires IsCalendarDate(d)
    ensures IsCalendarDate(r) && r.day == DaysInMonth(r.year, r.month)
    ensures Ordinal(r) == Ordinal(d) - d.day
  {
    if d.month == 1 then
      YearStep(d.year - 1);
      DecemberStep(d.year - 1);
      Date(d.year - 1, 12, 31)
    else
      MonthStep(d.year, d.month - 1);
      LastDayOfMonth(d.year, d.month - 1)
  }

  /** The date `n` days after `d`, in the unbounded calendar. */
  function AddDays(d: Date, n: nat): (r: Date)
    requires IsCalendarDate(d)
    ensures IsCalendarDate(r)
    ensures Ordinal(r) == Ordinal(d) + n
    decreases n
  {
    var last := DaysInMonth(d.year, d.month);
    if d.day + n <= last then Date(d.year, d.month, d.day + n)
    else AddDays(FirstOfNextMonth(d), n - (last - d.day) - 1)
  }

  /** The date `n` days before `d`, in the unbounded calendar. */
  function SubDays(d: Date, n: nat): (r: Date)
    requires IsCalendarDate(d)
    ensures IsCalendarDate(r)
    ensures Ordinal(r) + n == Ordinal(d)
    decreases n
  {
    if n < d.day then Date(d.year, d.month, d.day - n)
    else SubDays(LastOfPreviousMonth(d), n - d.day)
  }

  /** A real date lies in Python's range exactly when its ordinal does. */
  lemma PyRangeByOrdinal(d: Date)
    requires IsCalendarDate(d)
    ensures IsPyDate(d) <==> 1 <= Ordinal(d) <= Ordinal(Date(MaxYear, 12, 31))
  {
    OrdinalOrder(d, Date(MinYear, 1, 1));
    OrdinalOrder(d, Date(MaxYear, 12, 31));
  }

  /** A real date no earlier than a Python date is itself one exactly when its year is at most 9999. */
  lemma LaterInPyRange(d: Date, later: Date)
    requires IsPyDate(d) && IsCalendarDate(later) && Ordinal(d) <= Ordinal(later)
    ensures IsPyDate(later) <==> later.year <= MaxYear
    ensures later.year <= MaxYear <==> Ordinal(later) <= Ordinal(Date(MaxYear, 12, 31))
  {
    PyRangeByOrdinal(d);
    PyRangeByOrdinal(later);
  }

  /** `d + timedelta(days=n)`, which raises `OverflowError` past 9999-12-31. */
  function PlusDays(d: Date, n: nat): (r: Result<Date>)
    requires IsPyDate(d)
    ensures r.Ok? <==> Ordinal(d) + n <= Ordinal(Date(MaxYear, 12, 31))
    ensures r.Ok? ==> IsPyDate(r.value) && Ordinal(r.value) == Ordinal(d) + n
  {
    var later := AddDays(d, n);
    LaterInPyRange(d, later);
    if later.year <= MaxYear then Ok(later) else Err(Overflow)
  }

  /** A real date no later than a Python date is itself one exactly when its year is at least 1. */
  lemma EarlierInPyRange(d: Date, earlier: Date)
    requires IsPyDate(d) && IsCalendarDate(earlier) && Ordinal(earlier) <= Ordinal(d)
    ensures IsPyDate(earlier) <==> earlier.year >= MinYear
    ensures earlier.year >= MinYear <==> 1 <= Ordinal(earlier)
  {
    PyRangeByOrdinal(d);
    PyRangeByOrdinal(earlier);
  }

  /** `d - timedelta(days=n)`, which raises `OverflowError` before 0001-01-01. */
  function MinusDays(d: Date, n: nat): (r: Result<Date>)
    requires IsPyDate(d)
    ensures r.Ok? <==> 1 <= Ordinal(d) - n
    ensures r.Ok? ==> IsPyDate(r.value) && Ordinal(r.value) + n == Ordinal(d)
  {
    var earlier := SubDays(d, n);
    EarlierInPyRange(d, earlier);
    if earlier.year >= MinYear then Ok(earlier) else Err(Overflow)
  }
}

=== FILE: crossref.dfy ===
/**
 * The cross-reference lookup of the dashboard: after the analysis, the
 * result sheet named after the chosen period ("resultat_par_<period>.xlsx")
 * is opened, and its rows for the selected operator are shown, or a message
 * that the operator has none, or a message that the sheet does not exist.
 *
 * Opening a sheet is not modelled: the sheets that exist are given as a map
 * from file name to table, and a name missing from the map is the
 * `FileNotFoundError` branch.
 */
module CrossRef {
  import opened Periods
  import Masking

  /** A row of a result sheet: the operator's full name and the other cells. */
  datatype ResultRow = ResultRow(operator: string, figures: seq<string>)

  /** The three outcomes the dashboard reports, each naming the sheet it tried. */
  datatype Lookup =
    | FileMissing(fileName: string)
    | NoData(fileName: string)
    | Found(fileName: string, rows: seq<ResultRow>)

  /** The text of each entry of the period selector. */
  function Label(kind: PeriodKind): string {
    match kind
    case Daily => "Jour"
    case Weekly => "Semaine"
    case Monthly => "Mois"
    case Quarterly => "Trimestre"
    case Yearly => "Année"
    case Custom => "Personnalisé"
  }

  /** `str.lower` on one character, for the letters the labels use. */
  function LowerChar(c: char): (r: char)
    ensures 'A' <= c <= 'Z' ==> 'a' <= r <= 'z' && r as int - c as int == 'a' as int - 'A' as int
    ensures !('A' <= c <= 'Z') ==> r == c
  {
    if 'A' <= c <= 'Z' then (c as int - 'A' as int + 'a' as int) as char else c
  }

  /** Whether `c` is an upper-case letter of the ASCII range. */
  predicate IsUpper(c: char) {
    'A' <= c <= 'Z'
  }

  /**
   * `str.lower` on the labels: upper-case letters become their lower-case
   * letter, every other character stays, and nothing upper-case is left.
   */
  function Lower(s: string): (r: string)
    ensures |r| == |s|
    ensures forall i :: 0 <= i < |r| ==> !IsUpper(r[i])
    ensures forall i :: 0 <= i < |s| && !IsUpper(s[i]) ==> r[i] == s[i]
    ensures forall i :: 0 <= i < |s| && IsUpper(s[i]) ==> r[i] as int == s[i] as int + ('a' as int - 'A' as int)
  {
    seq(|s|, i requires 0 <= i < |s| => LowerChar(s[i]))
  }

  /** Lowering twice is lowering once. */
  lemma LowerIdempotent(s: string)
    ensures Lower(Lower(s)) == Lower(s)
  {
  }

  /** The fixed parts of a result sheet's name. */
  const Prefix: string := "resultat_par_"
  const Suffix: string := ".xlsx"

  /**
   * The result sheet of a period kind: the prefix, the selector's label in
   * lower case, and the Excel extension.
   */
  function ResultFileName(kind: PeriodKind): (r: string)
    ensures |r| == |Prefix| + |Label(kind)| + |Suffix|
    ensures r[..|Prefix|] == Prefix && r[|r| - |Suffix|..] == Suffix
    ensures var middle := r[|Prefix|..|r| - |Suffix|];
            Lower(middle) == middle && Lower(middle) == Lower(Label(kind))
  {
    Prefix + Lower(Label(kind)) + Suffix
  }

  /** The labels start with distinct upper-case letters. */
  lemma InitialsDiffer(a: PeriodKind, b: PeriodKind)
    requires a != b
    ensures |Label(a)| > 0 && |Label(b)| > 0
    ensures IsUpper(Label(a)[0]) && IsUpper(Label(b)[0])
    ensures Label(a)[0] != Label(b)[0]
  {
  }

  /** Each period kind has its own result sheet: the lowered labels already differ in their first letter. */
  lemma ResultFileNamesDiffer(a: PeriodKind, b: PeriodKind)
    requires a != b
    ensures ResultFileName(a) != ResultFileName(b)
  {
    InitialsDiffer(a, b);
    var na, nb := ResultFileName(a), ResultFileName(b);
    var ma, mb := na[|Prefix|..|na| - |Suffix|], nb[|Prefix|..|nb| - |Suffix|];
    assert ma == Lower(Label(a)) && mb == Lower(Label(b));
    assert na[|Prefix|] == ma[0] && nb[|Prefix|] == mb[0];
  }

  predicate IsOperator(row: ResultRow, operator: string) {
    row.operator == operator
  }

  function OperatorIs(operator: string): ResultRow -> bool {
    row => IsOperator(row, operator)
  }

  /** The lookup for the chosen period kind and operator. */
  function LookupOperator(sheets: map<string, seq<ResultRow>>, kind: PeriodKind, operator: string): (r: Lookup)
    ensures r.fileName == ResultFileName(kind)
    ensures r.FileMissing? <==> ResultFileName(kind) !in sheets
    ensures r.NoData? <==> ResultFileName(kind) in sheets
                            && forall i :: 0 <= i < |sheets[ResultFileName(kind)]| ==>
                                 sheets[ResultFileName(kind)][i].operator != operator
    ensures r.Found? ==> && r.rows == Masking.Mask(sheets[ResultFileName(kind)], OperatorIs(operator))
                         && |r.rows| > 0
                         && forall k :: 0 <= k < |r.rows| ==> r.rows[k].operator == operator
  {
    var name := ResultFileName(kind);
    if name !in sheets then FileMissing(name)
    else
      var matching := Masking.Mask(sheets[name], OperatorIs(operator));
      if |matching| == 0 then NoData(name)
      else
        assert matching[0] in sheets[name];
        Found(name, matching)
  }

  /**
   * When the sheet exists, every one of its rows with the operator's exact
   * name is shown, and the shown rows are those rows in sheet order.
   */
  lemma LookupShowsEveryMatchingRow(sheets: map<string, seq<ResultRow>>, kind: PeriodKind, operator: string)
    requires ResultFileName(kind) in sheets
    ensures var sheet := sheets[ResultFileName(kind)];
            var r := LookupOperator(sheets, kind, operator);
            && (forall i :: 0 <= i < |sheet| && sheet[i].operator == operator ==> r.Found? && sheet[i] in r.rows)
            && (r.Found? ==>
                  var ix := Masking.KeptIndices(sheet, OperatorIs(operator));
                  && |r.rows| == |ix|
                  && forall k :: 0 <= k < |ix| ==> r.rows[k] == sheet[ix[k]])
  {
    var sheet := sheets[ResultFileName(kind)];
    Masking.MaskFollowsKeptIndices(sheet, OperatorIs(operator));
  }
}

=== FILE: dashboard.dfy ===
/**
 * One press of "Analyser": the period selection is resolved into a date
 * range, the sheet is filtered on the chosen operator and range, the number
 * of kept rows is reported, two of them are drawn when there are at least
 * two, the per-date counts feed the chart, and the result sheet of the
 * period kind is looked up for the operator.
 *
 * The inputs the dashboard takes from its widgets, its clock, its random
 * generator and its files are parameters here.
 */
module Dashboard {
  import opened Calendar
  import opened Periods
  import opened Records
  import opened Tally
  import opened Sampling
  import opened CrossRef
  import Masking

  /**
   * What one analysis computes: the range, the rows the filter keeps (the
   * page prints only their number), the draw, the chart's bars and the
   * cross-reference lookup.
   */
  datatype Report = Report(
    range: DateRange,
    kept: seq<DatedIntervention>,
    count: nat,
    draw: Draw,
    chart: seq<Bucket>,
    crossRef: Lookup)

  /**
   * The analysis of `rows` for `operator` over the selection `sel`. `pick`
   * and `skip` stand for the random generator, `sheets` for the result
   * workbooks present next to the dashboard. A selection whose end date
   * would leave the calendar stops the dashboard with an overflow, and a
   * range with an end that no pandas `Timestamp` can hold stops it with
   * `OutOfBoundsDatetime`, both before anything is shown.
   */
  function Analyse(rows: seq<Intervention>, operator: string, sel: Selection,
                   pick: nat, skip: nat, sheets: map<string, seq<ResultRow>>): (r: Result<Report>)
    requires sel.WellFormed()
    ensures r.Ok? <==> Resolve(sel).Ok? && FitsTimestamp(Resolve(sel).value.start)
                                        && FitsTimestamp(Resolve(sel).value.end)
    ensures Resolve(sel).Err? ==> r == Err(Overflow)
    ensures Resolve(sel).Ok? && r.Err? ==> r.error == OutOfBoundsDatetime
    ensures r.Ok? ==>
              var rep := r.value;
              && rep.range == Resolve(sel).value
              && rep.range.start == sel.Start()
              && rep.count == |rep.kept| <= |rows|
              && (forall k :: 0 <= k < |rep.kept| ==>
                    rep.kept[k].operator == operator && InRange(rep.kept[k].date, rep.range))
              && (forall i :: 0 <= i < |rows| && Matches(Normalize(rows[i]), operator, rep.range) ==>
                    Normalize(rows[i]) in rep.kept)
              && (rep.draw.NotEnoughData? <==> rep.count < 2)
              && (rep.draw.Drawn? ==> rep.draw.first < rep.count && rep.draw.second < rep.count
                                       && rep.draw.first != rep.draw.second)
              && Keys(rep.chart) == DatesOf(rep.kept)
              && SumCounts(rep.chart) == rep.count
              && rep.kept == FilterRows(rows, operator, rep.range)
              && rep.draw == DrawTwo(rep.count, pick, skip)
              && rep.chart == CountByDate(rep.kept)
              && rep.crossRef == LookupOperator(sheets, sel.Kind(), operator)
              && rep.crossRef.fileName == ResultFileName(sel.Kind())
  {
    match Resolve(sel)
    case Err(x) => Err(x)
    case Ok(range) =>
      match FilterData(rows, operator, range)
      case Err(x) => Err(x)
      case Ok(kept) =>
        Ok(Report(range, kept, |kept|, DrawTwo(|kept|, pick, skip), CountByDate(kept),
                  LookupOperator(sheets, sel.Kind(), operator)))
  }

  /**
   * A year entered after 2262 resolves in the calendar but not in pandas: the
   * dashboard stops with `OutOfBoundsDatetime`, whatever the sheet.
   */
  lemma YearsPast2262AreOutOfBounds(rows: seq<Intervention>, operator: string, s: Date,
                                    pick: nat, skip: nat, sheets: map<string, seq<ResultRow>>)
    requires IsPyDate(s) && s.year > LastTimestampDate.year
    ensures Analyse(rows, operator, YearFrom(s), pick, skip, sheets) == Err(OutOfBoundsDatetime)
  {
    assert Resolve(YearFrom(s)).Ok?;
  }

  /**
   * A date entered before 1677-09-22 makes every period kind whose range
   * resolves stop with `OutOfBoundsDatetime`.
   */
  lemma EarlyStartIsOutOfBounds(rows: seq<Intervention>, operator: string, sel: Selection,
                                pick: nat, skip: nat, sheets: map<string, seq<ResultRow>>)
    requires sel.WellFormed() && Before(sel.Start(), FirstTimestampDate)
    ensures var r := Analyse(rows, operator, sel, pick, skip, sheets);
            r.Err? && (Resolve(sel).Ok? ==> r.error == OutOfBoundsDatetime)
  {
  }

  /**
   * A week that fits in the calendar, and a sheet whose rows all belong to
   * the operator and fall within the seven days from the entered start:
   * every row is counted, the draw happens iff there are two rows or more,
   * and the chart's bars add up to the sheet's length.
   */
  lemma WholeWeekIsCounted(rows: seq<Intervention>, operator: string, s: Date,
                           pick: nat, skip: nat, sheets: map<string, seq<ResultRow>>)
    requires IsPyDate(s) && FitsTimestamp(s) && Ordinal(s) + 6 <= Ordinal(LastTimestampDate)
    requires forall i :: 0 <= i < |rows| ==>
               && rows[i].operator == operator
               && IsCalendarDate(rows[i].stamp.date)
               && Ordinal(s) <= Ordinal(rows[i].stamp.date) <= Ordinal(s) + 6
    ensures var r := Analyse(rows, operator, WeekFrom(s), pick, skip, sheets);
            && r.Ok?
            && r.value.kept == NormalizeColumn(rows)
            && r.value.count == |rows|
            && (r.value.draw.Drawn? <==> |rows| >= 2)
            && SumCounts(r.value.chart) == |rows|
  {
    WeekFits(s);
    WeekRange(s);
    var range := Resolve(WeekFrom(s)).value;
    var dated := NormalizeColumn(rows);
    forall i | 0 <= i < |dated|
      ensures MatchesFor(operator, range)(dated[i])
    {
      assert dated[i].date == rows[i].stamp.date;
    }
    Masking.MaskKeepsAll(dated, MatchesFor(operator, range));
    assert FilterData(rows, operator, range) == Ok(dated);
    assert Analyse(rows, operator, WeekFrom(s), pick, skip, sheets)
        == Ok(Report(range, dated, |dated|, DrawTwo(|dated|, pick, skip), CountByDate(dated),
                     LookupOperator(sheets, Weekly, operator)));
  }

  /**
   * The week runs from the date entered, not from its Monday: when a
   * Wednesday is entered, none of the rows of that week's Monday are kept,
   * whatever else the sheet holds, so a sheet of Monday rows only counts 0.
   */
  lemma MidWeekStartMissesMonday(rows: seq<Intervention>, operator: string, s: Date,
                                 pick: nat, skip: nat, sheets: map<string, seq<ResultRow>>)
    requires IsPyDate(s) && FitsTimestamp(s) && Weekday(s) > 0 && Ordinal(s) + 6 <= Ordinal(LastTimestampDate)
    ensures var r := Analyse(rows, operator, WeekFrom(s), pick, skip, sheets);
            && r.Ok?
            && (forall k :: 0 <= k < |r.value.kept| ==> r.value.kept[k].date != MondayOf(s).value)
            && ((forall i :: 0 <= i < |rows| ==> rows[i].stamp.date == MondayOf(s).value) ==> r.value.count == 0)
  {
    WeekFits(s);
    var monday := MondayOf(s).value;
    OrdinalOrder(monday, s);
    EarlierRowsExcluded(rows, operator, Resolve(WeekFrom(s)).value);
  }

  /**
   * An operator with no row in the sheet gets a zero count, the "not enough
   * data" message and an empty chart, for every period that resolves.
   */
  lemma AbsentOperatorGetsNothing(rows: seq<Intervention>, operator: string, sel: Selection,
                                  pick: nat, skip: nat, sheets: map<string, seq<ResultRow>>)
    requires sel.WellFormed() && Resolve(sel).Ok?
    requires FitsTimestamp(Resolve(sel).value.start) && FitsTimestamp(Resolve(sel).value.end)
    requires forall i :: 0 <= i < |rows| ==> rows[i].operator != operator
    ensures var r := Analyse(rows, operator, sel, pick, skip, sheets);
            && r.Ok?
            && r.value.count == 0
            && r.value.draw == NotEnoughData
            && r.value.chart == []
  {
    var range := Resolve(sel).value;
    OtherOperatorsExcluded(rows, operator, range);
  }

  /** A week that starts and ends within the `Timestamp` span resolves, and both its ends fit. */
  lemma WeekFits(s: Date)
    requires IsPyDate(s) && FitsTimestamp(s) && Ordinal(s) + 6 <= Ordinal(LastTimestampDate)
    ensures Resolve(WeekFrom(s)).Ok?
    ensures FitsTimestamp(Resolve(WeekFrom(s)).value.start) && FitsTimestamp(Resolve(WeekFrom(s)).value.end)
    ensures var range := Resolve(WeekFrom(s)).value;
            range.start == s && Ordinal(range.end) == Ordinal(s) + 6
  {
    OrdinalOrder(LastTimestampDate, Date(MaxYear, 12, 31));
    WeekRange(s);
    var e := Resolve(WeekFrom(s)).value.end;
    OrdinalOrder(s, e);
    OrdinalOrder(e, LastTimestampDate);
  }
}

=== FILE: masking.dfy ===
/**
 * Boolean-mask selection over an ordered table, as `df[mask]` does it: the
 * rows whose mask entry is true, in their original order, unchanged.
 *
 * `Mask` is defined by recursion on the last row. Its reference partner is
 * `KeptIndices`, the increasing list of positions the mask selects;
 * `MaskFollowsKeptIndices` proves the selection is exactly those rows, in
 * that order.
 */
module Masking {

  function Mask<T(==)>(s: seq<T>, keep: T -> bool): (r: seq<T>)
    ensures |r| <= |s|
    ensures forall k :: 0 <= k < |r| ==> keep(r[k])
    ensures forall x :: x in r ==> x in s
    ensures forall i :: 0 <= i < |s| && keep(s[i]) ==> s[i] in r
    decreases |s|
  {
    if |s| == 0 then []
    else
      var rest := Mask(s[..|s| - 1], keep);
      var last := s[|s| - 1];
      assert forall i :: 0 <= i < |s| - 1 ==> s[..|s| - 1][i] == s[i];
      if keep(last) then rest + [last] else rest
  }

  /** The positions of `s` that the mask keeps, in increasing order. */
  function KeptIndices<T>(s: seq<T>, keep: T -> bool): (ix: seq<int>)
    ensures forall k :: 0 <= k < |ix| ==> 0 <= ix[k] < |s| && keep(s[ix[k]])
    ensures forall k, l :: 0 <= k < l < |ix| ==> ix[k] < ix[l]
    ensures forall i :: 0 <= i < |s| && keep(s[i]) ==> i in ix
    decreases |s|
  {
    if |s| == 0 then []
    else
      var rest := KeptIndices(s[..|s| - 1], keep);
      if keep(s[|s| - 1]) then rest + [|s| - 1] else rest
  }

  /**
   * The masked table is the kept rows in their original order: its k-th row
   * is the row at the k-th kept position.
   */
  lemma {:induction false} MaskFollowsKeptIndices<T>(s: seq<T>, keep: T -> bool)
    ensures |Mask(s, keep)| == |KeptIndices(s, keep)|
    ensures forall k :: 0 <= k < |Mask(s, keep)| ==>
              Mask(s, keep)[k] == s[KeptIndices(s, keep)[k]]
    decreases |s|
  {
    if |s| > 0 {
      var init := s[..|s| - 1];
      MaskFollowsKeptIndices(init, keep);
      assert forall i :: 0 <= i < |init| ==> init[i] == s[i];
    }
  }

  /** A table whose every row passes the mask comes back whole. */
  lemma {:induction false} MaskKeepsAll<T>(s: seq<T>, keep: T -> bool)
    requires forall i :: 0 <= i < |s| ==> keep(s[i])
    ensures Mask(s, keep) == s
    decreases |s|
  {
    if |s| > 0 {
      var init := s[..|s| - 1];
      MaskKeepsAll(init, keep);
      assert init + [s[|s| - 1]] == s;
    }
  }

  /** A table no row of which passes the mask comes back empty. */
  lemma MaskKeepsNone<T>(s: seq<T>, keep: T -> bool)
    requires forall i :: 0 <= i < |s| ==> !keep(s[i])
    ensures Mask(s, keep) == []
  {
  }

  /** Masking twice with the same mask is masking once. */
  lemma MaskIdempotent<T>(s: seq<T>, keep: T -> bool)
    ensures Mask(Mask(s, keep), keep) == Mask(s, keep)
  {
    MaskKeepsAll(Mask(s, keep), keep);
  }
}

=== FILE: periods.dfy ===
/**
 * The period resolver of the intervention dashboard: from the period the
 * analyst picks and the start date entered for it, the inclusive range
 * [date_debut, date_fin] that the record filter uses.
 *
 * The end of a month or a quarter is found the way the dashboard does it,
 * without a month-length table: go to the first of the start's month, jump
 * 32 (or 93) days ahead, go back to the first of the month reached, and step
 * back one day. The lemmas here prove where those jumps land.
 */
module Periods {
  import opened Calendar

  /** The six entries of the period selector. */
  datatype PeriodKind = Daily | Weekly | Monthly | Quarterly | Yearly | Custom

  /**
   * A period kind together with the date(s) entered for it. Only `Between`
   * takes two dates; every other kind derives its end from its start.
   */
  datatype Selection =
    | DayOf(day: Date)
    | WeekFrom(start: Date)
    | MonthFrom(start: Date)
    | QuarterFrom(start: Date)
    | YearFrom(start: Date)
    | Between(start: Date, end: Date)
  {
    function Kind(): PeriodKind {
      match this
      case DayOf(_) => Daily
      case WeekFrom(_) => Weekly
      case MonthFrom(_) => Monthly
      case QuarterFrom(_) => Quarterly
      case YearFrom(_) => Yearly
      case Between(_, _) => Custom
    }

    /** The first date entered, which becomes `date_debut` as is. */
    function Start(): Date {
      match this
      case DayOf(d) => d
      case WeekFrom(s) => s
      case MonthFrom(s) => s
      case QuarterFrom(s) => s
      case YearFrom(s) => s
      case Between(s, _) => s
    }

    /** Every date entered is one a date widget can return. */
    predicate WellFormed() {
      match this
      case DayOf(d) => IsPyDate(d)
      case WeekFrom(s) => IsPyDate(s)
      case MonthFrom(s) => IsPyDate(s)
      case QuarterFrom(s) => IsPyDate(s)
      case YearFrom(s) => IsPyDate(s)
      case Between(s, e) => IsPyDate(s) && IsPyDate(e)
    }
  }

  /** The (year, month) that comes `k` months after month `m` of year `y`. */
  function MonthsLater(y: int, m: int, k: nat): (ym: (int, int))
    requires 1 <= m <= 12
    ensures 1 <= ym.1 <= 12
    ensures ym.0 * 12 + ym.1 == y * 12 + m + k
  {
    var index := y * 12 + (m - 1) + k;
    (index / 12, index % 12 + 1)
  }

  lemma MonthsLaterSameYear(y: int, m: int, k: nat)
    requires 1 <= m && m + k <= 12
    ensures MonthsLater(y, m, k) == (y, m + k)
  {
  }

  lemma MonthsLaterNextYear(y: int, m: int, k: nat)
    requires 1 <= m <= 12 && 12 < m + k <= 24
    ensures MonthsLater(y, m, k) == (y + 1, m + k - 12)
  {
  }

  /** `(start.replace(day=1) + timedelta(days=jump)).replace(day=1) - timedelta(days=1)`. */
  function RollingMonthEnd(start: Date, jump: nat): (r: Result<Date>)
    requires IsPyDate(start)
    ensures r.Err? ==> r.error == Overflow
    ensures r.Ok? ==> IsPyDate(r.value) && r.value.day == DaysInMonth(r.value.year, r.value.month)
  {
    match PlusDays(WithDayOne(start), jump)
    case Ok(probe) =>
      StepBackFromFirstOfMonth(WithDayOne(probe));
      MinusDays(WithDayOne(probe), 1)
    case Err(x) => Err(x)
  }

  /** The range from `start` to a computed end, or the error computing the end raised. */
  function EndingAt(start: Date, end: Result<Date>): Result<DateRange> {
    match end
    case Ok(e) => Ok(DateRange(start, e))
    case Err(x) => Err(x)
  }

  /**
   * The range the dashboard filters on for a selection. It always starts on
   * the entered date and ends on a valid date; only the kinds whose end is
   * computed by date arithmetic can fail, and then with an overflow.
   */
  function Resolve(sel: Selection): (r: Result<DateRange>)
    requires sel.WellFormed()
    ensures r.Ok? ==> r.value.start == sel.Start() && IsPyDate(r.value.end)
    ensures r.Err? ==> r.error == Overflow && (sel.WeekFrom? || sel.MonthFrom? || sel.QuarterFrom?)
  {
    match sel
    case DayOf(d) => Ok(DateRange(d, d))
    case WeekFrom(s) => EndingAt(s, PlusDays(s, 6))
    case MonthFrom(s) => EndingAt(s, RollingMonthEnd(s, 32))
    case QuarterFrom(s) => EndingAt(s, RollingMonthEnd(s, 93))
    case YearFrom(s) => Ok(DateRange(s, Date(s.year, 12, 31)))
    case Between(s, e) => Ok(DateRange(s, e))
  }

  // ---------------------------------------------------------------------
  // Where the rolling jumps land
  // ---------------------------------------------------------------------

  /** From the first of a month, 32 days ahead is day 2 to 5 of the next month. */
  lemma JumpOneMonth(first: Date)
    requires IsCalendarDate(first) && first.day == 1
    ensures AddDays(first, 32)
         == Date(FirstOfNextMonth(first).year, FirstOfNextMonth(first).month,
                 33 - DaysInMonth(first.year, first.month))
  {
    var next := FirstOfNextMonth(first);
    var target := Date(next.year, next.month, 33 - DaysInMonth(first.year, first.month));
    LandsOn(first, 32, target);
  }

  /**
   * From the first of a month, 93 days ahead is in the month three months
   * on, on day 94 less the lengths of the three months passed: day 2 to 5.
   */
  lemma JumpThreeMonths(first: Date)
    requires IsCalendarDate(first) && first.day == 1
    ensures var n1 := FirstOfNextMonth(first);
            var n2 := FirstOfNextMonth(n1);
            var n3 := FirstOfNextMonth(n2);
            var spent := DaysInMonth(first.year, first.month) + DaysInMonth(n1.year, n1.month)
                         + DaysInMonth(n2.year, n2.month);
            && 2 <= 94 - spent <= 5
            && AddDays(first, 93) == Date(n3.year, n3.month, 94 - spent)
  {
    var n1 := FirstOfNextMonth(first);
    var n2 := FirstOfNextMonth(n1);
    var n3 := FirstOfNextMonth(n2);
    var spent := DaysInMonth(first.year, first.month) + DaysInMonth(n1.year, n1.month)
                 + DaysInMonth(n2.year, n2.month);
    ThreeMonthsLength(first);
    assert Ordinal(n3) == Ordinal(first) + spent;
    LandsOn(first, 93, Date(n3.year, n3.month, 94 - spent));
  }

  /** Three consecutive months last 89 to 92 days. */
  lemma ThreeMonthsLength(first: Date)
    requires IsCalendarDate(first)
    ensures var n1 := FirstOfNextMonth(first);
            var n2 := FirstOfNextMonth(n1);
            89 <= DaysInMonth(first.year, first.month) + DaysInMonth(n1.year, n1.month)
                  + DaysInMonth(n2.year, n2.month) <= 92
  {
    var n1 := FirstOfNextMonth(first);
    var n2 := FirstOfNextMonth(n1);
    if first.month <= 10 {
      assert n1.month == first.month + 1 && n2.month == first.month + 2;
    } else if first.month == 11 {
      assert n1.month == 12 && n2.month == 1;
    } else {
      assert n1.month == 1 && n2.month == 2;
    }
  }

  /** Two real dates with the same ordinal are the same day, so `AddDays` lands on the date the ordinal names. */
  lemma LandsOn(d: Date, n: nat, target: Date)
    requires IsCalendarDate(d) && IsCalendarDate(target)
    requires Ordinal(target) == Ordinal(d) + n
    ensures AddDays(d, n) == target
  {
    OrdinalOrder(AddDays(d, n), target);
  }

  /**
   * Stepping back one day from the first of a month either overflows (only
   * from 0001-01-01) or lands on the last day of the previous month.
   */
  lemma StepBackFromFirstOfMonth(first: Date)
    requires IsPyDate(first) && first.day == 1
    ensures MinusDays(first, 1).Ok? <==> first != Date(MinYear, 1, 1)
    ensures MinusDays(first, 1).Ok? ==> MinusDays(first, 1) == Ok(LastOfPreviousMonth(first))
  {
    if first != Date(MinYear, 1, 1) {
      assert Before(Date(MinYear, 1, 1), first);
      BackFromFirstOfMonth(first);
    }
  }

  lemma BackFromFirstOfMonth(first: Date)
    requires IsPyDate(first) && first.day == 1 && Before(Date(MinYear, 1, 1), first)
    ensures MinusDays(first, 1) == Ok(LastOfPreviousMonth(first))
  {
    assert SubDays(first, 1) == SubDays(LastOfPreviousMonth(first), 0);
  }

  /**
   * The month trick ends on the last calendar day of the start's month: 31
   * for March, 28 or 29 for February, and so on. Only December 9999 fails,
   * because the 32-day jump leaves Python's date range.
   */
  lemma MonthEndIsLastDayOfMonth(start: Date)
    requires IsPyDate(start)
    ensures RollingMonthEnd(start, 32)
         == if start.year == MaxYear && start.month == 12 then Err(Overflow)
            else Ok(LastDayOfMonth(start.year, start.month))
  {
    var first := WithDayOne(start);
    var next := FirstOfNextMonth(first);
    JumpOneMonth(first);
    if !(start.year == MaxYear && start.month == 12) {
      assert WithDayOne(AddDays(first, 32)) == next;
      BackFromFirstOfMonth(next);
    }
  }

  /**
   * The quarter trick ends on the last day of the month two months after the
   * start's month (June 30 for any start in April; Jan 31 of the next year
   * for a November start). Only October to December 9999 fail.
   */
  lemma QuarterEndIsTwoMonthsLater(start: Date)
    requires IsPyDate(start)
    ensures RollingMonthEnd(start, 93)
         == if start.year == MaxYear && start.month >= 10 then Err(Overflow)
            else Ok(LastDayOfMonth(MonthsLater(start.year, start.month, 2).0,
                                   MonthsLater(start.year, start.month, 2).1))
  {
    if start.year == MaxYear && start.month >= 10 {
      QuarterEndOverflows(start);
    } else {
      QuarterEndInRange(start);
    }
  }

  lemma QuarterEndOverflows(start: Date)
    requires IsPyDate(start) && start.year == MaxYear && start.month >= 10
    ensures RollingMonthEnd(start, 93) == Err(Overflow)
  {
    var first := WithDayOne(start);
    JumpThreeMonths(first);
  }

  lemma QuarterEndInRange(start: Date)
    requires IsPyDate(start) && !(start.year == MaxYear && start.month >= 10)
    ensures var ym := MonthsLater(start.year, start.month, 2);
            RollingMonthEnd(start, 93) == Ok(LastDayOfMonth(ym.0, ym.1))
  {
    var first := WithDayOne(start);
    var n2 := FirstOfNextMonth(FirstOfNextMonth(first));
    var n3 := FirstOfNextMonth(n2);
    var probe := AddDays(first, 93);
    JumpThreeMonths(first);
    assert PlusDays(first, 93) == Ok(probe);
    assert WithDayOne(probe) == n3;
    BackFromFirstOfMonth(n3);
    TwoMonthsLater(first);
  }

  lemma TwoMonthsLater(first: Date)
    requires IsCalendarDate(first)
    ensures var n2 := FirstOfNextMonth(FirstOfNextMonth(first));
            var ym := MonthsLater(first.year, first.month, 2);
            LastOfPreviousMonth(FirstOfNextMonth(n2)) == LastDayOfMonth(ym.0, ym.1)
  {
    var n2 := FirstOfNextMonth(FirstOfNextMonth(first));
    var ym := MonthsLater(first.year, first.month, 2);
    assert n2.year == ym.0 && n2.month == ym.1;
  }

  // ---------------------------------------------------------------------
  // The range each kind resolves to
  // ---------------------------------------------------------------------

  /** A day resolves to a range holding that day alone. */
  lemma DayRange(d: Date)
    requires IsPyDate(d)
    ensures Resolve(DayOf(d)).Ok? && Resolve(DayOf(d)).value.start == d
    ensures forall x :: InRange(x, Resolve(DayOf(d)).value) <==> x == d
  {
  }

  /**
   * A week ends 6 days after its start, so it covers exactly the seven
   * dates whose ordinals run from the start's to the start's plus 6. It
   * fails only when that end would pass 9999-12-31.
   */
  lemma WeekRange(s: Date)
    requires IsPyDate(s)
    ensures Resolve(WeekFrom(s)).Ok? <==> Ordinal(s) + 6 <= Ordinal(Date(MaxYear, 12, 31))
    ensures Resolve(WeekFrom(s)).Ok? ==>
              var range := Resolve(WeekFrom(s)).value;
              && range.start == s
              && Ordinal(range.end) == Ordinal(s) + 6
              && forall d :: IsCalendarDate(d) ==>
                   (InRange(d, range) <==> Ordinal(s) <= Ordinal(d) <= Ordinal(s) + 6)
  {
    if Resolve(WeekFrom(s)).Ok? {
      var range := Resolve(WeekFrom(s)).value;
      forall d | IsCalendarDate(d)
        ensures InRange(d, range) <==> Ordinal(s) <= Ordinal(d) <= Ordinal(s) + 6
      {
        OrdinalOrder(s, d);
        OrdinalOrder(d, range.end);
      }
    }
  }

  /**
   * A month runs from the entered date to the last day of its month: it
   * holds exactly the days of that month from the entered day on.
   */
  lemma MonthRange(s: Date)
    requires IsPyDate(s)
    ensures Resolve(MonthFrom(s))
         == if s.year == MaxYear && s.month == 12 then Err(Overflow)
            else Ok(DateRange(s, LastDayOfMonth(s.year, s.month)))
    ensures Resolve(MonthFrom(s)).Ok? ==>
              forall x :: IsCalendarDate(x) ==>
                (InRange(x, Resolve(MonthFrom(s)).value)
                 <==> x.year == s.year && x.month == s.month && s.day <= x.day)
  {
    MonthEndIsLastDayOfMonth(s);
  }

  /** `Resolve` of a quarter start whose rolling end has been computed. */
  lemma QuarterResolvesTo(s: Date, e: Date)
    requires IsPyDate(s) && RollingMonthEnd(s, 93) == Ok(e)
    ensures Resolve(QuarterFrom(s)) == Ok(DateRange(s, e))
  {
  }

  /**
   * A quarter runs from the entered date to the last day of the month two
   * months after the entered date's month, whatever month that is.
   */
  lemma QuarterRange(s: Date)
    requires IsPyDate(s)
    ensures s.year == MaxYear && s.month >= 10 ==> Resolve(QuarterFrom(s)) == Err(Overflow)
    ensures !(s.year == MaxYear && s.month >= 10) ==>
              var ym := MonthsLater(s.year, s.month, 2);
              Resolve(QuarterFrom(s)) == Ok(DateRange(s, LastDayOfMonth(ym.0, ym.1)))
  {
    if s.year == MaxYear && s.month >= 10 {
      QuarterEndOverflows(s);
    } else {
      QuarterEndInRange(s);
      var ym := MonthsLater(s.year, s.month, 2);
      QuarterResolvesTo(s, LastDayOfMonth(ym.0, ym.1));
    }
  }

  /**
   * A quarter holds exactly the dates from the entered one through the end
   * of the month two months later: the start's month and the next two.
   */
  lemma QuarterSpansThreeMonths(s: Date)
    requires IsPyDate(s) && !(s.year == MaxYear && s.month >= 10)
    ensures Resolve(QuarterFrom(s)).Ok?
    ensures forall x :: IsCalendarDate(x) ==>
              (InRange(x, Resolve(QuarterFrom(s)).value)
               <==> AtOrBefore(s, x) && x.year * 12 + x.month <= s.year * 12 + s.month + 2)
  {
    QuarterRange(s);
    var ym := MonthsLater(s.year, s.month, 2);
    forall x | IsCalendarDate(x)
      ensures AtOrBefore(x, LastDayOfMonth(ym.0, ym.1)) <==> x.year * 12 + x.month <= ym.0 * 12 + ym.1
    {
      NoLaterThanMonthEnd(x, ym.0, ym.1);
    }
  }

  /** A date is no later than the last day of month `m` of year `y` iff its month is not later. */
  lemma NoLaterThanMonthEnd(x: Date, y: int, m: int)
    requires IsCalendarDate(x) && 1 <= m <= 12
    ensures AtOrBefore(x, LastDayOfMonth(y, m)) <==> x.year * 12 + x.month <= y * 12 + m
  {
    if x.year < y {
      assert x.year * 12 + x.month <= (y - 1) * 12 + 12;
    } else if x.year > y {
      assert x.year * 12 + x.month >= (y + 1) * 12 + 1;
    }
  }

  /**
   * A year runs from the entered date to December 31 of its year: it holds
   * exactly the dates of that year from the entered one on.
   */
  lemma YearRange(s: Date)
    requires IsPyDate(s)
    ensures Resolve(YearFrom(s)) == Ok(DateRange(s, Date(s.year, 12, 31)))
    ensures IsPyDate(Date(s.year, 12, 31))
    ensures forall x :: IsCalendarDate(x) ==>
              (InRange(x, Resolve(YearFrom(s)).value) <==> x.year == s.year && AtOrBefore(s, x))
  {
  }

  /**
   * A custom range is taken as entered and holds the dates whose ordinals
   * lie between the two entered ones; when the end precedes the start it
   * holds no date at all.
   */
  lemma CustomRange(s: Date, e: Date)
    requires IsPyDate(s) && IsPyDate(e)
    ensures Resolve(Between(s, e)) == Ok(DateRange(s, e))
    ensures forall x :: IsCalendarDate(x) ==>
              (InRange(x, Resolve(Between(s, e)).value) <==> Ordinal(s) <= Ordinal(x) <= Ordinal(e))
    ensures Before(e, s) ==> forall x :: !InRange(x, Resolve(Between(s, e)).value)
  {
    forall x | IsCalendarDate(x)
      ensures InRange(x, DateRange(s, e)) <==> Ordinal(s) <= Ordinal(x) <= Ordinal(e)
    {
      OrdinalOrder(s, x);
      OrdinalOrder(x, e);
    }
  }

  /**
   * Every kind but the custom one keeps the entered start and yields an end
   * that is a real date no earlier than it.
   */
  lemma ResolvedRangeIsOrdered(sel: Selection)
    requires sel.WellFormed() && !sel.Between?
    ensures Resolve(sel).Ok? ==>
              && Resolve(sel).value.start == sel.Start()
              && IsPyDate(Resolve(sel).value.end)
              && AtOrBefore(Resolve(sel).value.start, Resolve(sel).value.end)
  {
    match sel
    case DayOf(d) =>
    case WeekFrom(s) =>
      WeekRange(s);
      if Resolve(sel).Ok? {
        OrdinalOrder(s, Resolve(sel).value.end);
      }
    case MonthFrom(s) =>
      MonthRange(s);
    case QuarterFrom(s) =>
      QuarterRange(s);
      var ym := MonthsLater(s.year, s.month, 2);
      assert ym.0 > s.year || (ym.0 == s.year && ym.1 > s.month);
    case YearFrom(s) =>
  }

  // ---------------------------------------------------------------------
  // The dates the widgets offer before the analyst changes them
  // ---------------------------------------------------------------------

  /** `today - timedelta(days=today.weekday())`, which never leaves Python's range. */
  function MondayOf(today: Date): (r: Result<Date>)
    requires IsPyDate(today)
    ensures r.Ok? && IsPyDate(r.value)
    ensures Weekday(r.value) == 0
    ensures AtOrBefore(r.value, today) && Ordinal(today) - Ordinal(r.value) < 7
  {
    PyRangeByOrdinal(today);
    var monday := Ordinal(today) - Weekday(today);
    MondayArithmetic(monday);
    var r := MinusDays(today, Weekday(today));
    OrdinalOrder(r.value, today);
    r
  }

  lemma MondayArithmetic(monday: int)
    requires monday % 7 == 1 && monday > -6
    ensures monday >= 1 && (monday + 6) % 7 == 0
  {
  }

  /** The first day of the quarter holding `today`, computed as quarter number `(month - 1) // 3 + 1`. */
  function QuarterStart(today: Date): (r: Date)
    requires IsPyDate(today)
    ensures IsPyDate(r) && r.year == today.year && r.day == 1
    ensures r.month in {1, 4, 7, 10}
    ensures r.month <= today.month <= r.month + 2
  {
    var quarter := (today.month - 1) / 3 + 1;
    Date(today.year, 3 * quarter - 2, 1)
  }

  /** The selection made by choosing `kind` and keeping the pre-filled date(s). */
  function DefaultSelection(kind: PeriodKind, today: Date): (sel: Selection)
    requires IsPyDate(today)
    ensures sel.WellFormed() && sel.Kind() == kind
  {
    match kind
    case Daily => DayOf(today)
    case Weekly => WeekFrom(MondayOf(today).value)
    case Monthly => MonthFrom(WithDayOne(today))
    case Quarterly => QuarterFrom(QuarterStart(today))
    case Yearly => YearFrom(Date(today.year, 1, 1))
    case Custom => Between(today, today)
  }

  /** The pre-filled week is the Monday-to-Sunday week holding today. */
  lemma DefaultWeekHoldsToday(today: Date)
    requires IsPyDate(today)
    ensures var r := Resolve(DefaultSelection(Weekly, today));
            r.Ok? ==> InRange(today, r.value) && Weekday(r.value.start) == 0
  {
    var monday := MondayOf(today).value;
    WeekRange(monday);
    OrdinalOrder(monday, today);
  }

  /** The pre-filled month is the whole calendar month holding today. */
  lemma DefaultMonthIsCalendarMonth(today: Date)
    requires IsPyDate(today)
    ensures var r := Resolve(DefaultSelection(Monthly, today));
            r.Ok? <==> !(today.year == MaxYear && today.month == 12)
    ensures var r := Resolve(DefaultSelection(Monthly, today));
            r.Ok? ==> r.value == DateRange(Date(today.year, today.month, 1), LastDayOfMonth(today.year, today.month))
                      && InRange(today, r.value)
  {
    MonthRange(WithDayOne(today));
  }

  /** The pre-filled quarter is the whole calendar quarter holding today. */
  lemma DefaultQuarterIsCalendarQuarter(today: Date)
    requires IsPyDate(today)
    ensures var r := Resolve(DefaultSelection(Quarterly, today));
            r.Ok? <==> !(today.year == MaxYear && today.month >= 10)
    ensures var r := Resolve(DefaultSelection(Quarterly, today));
            var q := QuarterStart(today).month;
            r.Ok? ==> r.value == DateRange(Date(today.year, q, 1), LastDayOfMonth(today.year, q + 2))
                      && InRange(today, r.value)
  {
    var q := QuarterStart(today);
    assert DefaultSelection(Quarterly, today) == QuarterFrom(q);
    if today.year == MaxYear && today.month >= 10 {
      QuarterEndOverflows(q);
    } else {
      QuarterOfTheYear(q);
      QuarterHoldsToday(today);
    }
  }

  /** Today lies between the first day of its quarter and that quarter's last day. */
  lemma QuarterHoldsToday(today: Date)
    requires IsPyDate(today)
    ensures var q := QuarterStart(today);
            InRange(today, DateRange(q, LastDayOfMonth(today.year, q.month + 2)))
  {
    var q := QuarterStart(today);
    if today.month == q.month + 2 {
      assert today.day <= DaysInMonth(today.year, q.month + 2);
    }
  }

  /** From the first day of a quarter, the quarter trick ends on that quarter's last day. */
  lemma QuarterOfTheYear(q: Date)
    requires IsPyDate(q) && q.day == 1 && q.month in {1, 4, 7, 10}
    requires !(q.year == MaxYear && q.month == 10)
    ensures Resolve(QuarterFrom(q)) == Ok(DateRange(q, LastDayOfMonth(q.year, q.month + 2)))
  {
    QuarterEndInRange(q);
    MonthsLaterSameYear(q.year, q.month, 2);
    QuarterResolvesTo(q, LastDayOfMonth(q.year, q.month + 2));
  }

  /** The pre-filled year is January 1 to December 31 of today's year. */
  lemma DefaultYearIsCalendarYear(today: Date)
    requires IsPyDate(today)
    ensures Resolve(DefaultSelection(Yearly, today))
         == Ok(DateRange(Date(today.year, 1, 1), Date(today.year, 12, 31)))
    ensures InRange(today, Resolve(DefaultSelection(Yearly, today)).value)
  {
  }

  /** Whatever the kind, the pre-filled dates resolve, when they resolve, to a range holding today. */
  lemma DefaultRangeHoldsToday(kind: PeriodKind, today: Date)
    requires IsPyDate(today)
    ensures var r := Resolve(DefaultSelection(kind, today));
            r.Ok? ==> InRange(today, r.value)
  {
    match kind
    case Daily =>
    case Weekly => DefaultWeekHoldsToday(today);
    case Monthly => DefaultMonthIsCalendarMonth(today);
    case Quarterly => DefaultQuarterIsCalendarQuarter(today);
    case Yearly => DefaultYearIsCalendarYear(today);
    case Custom =>
  }

  // ---------------------------------------------------------------------
  // Worked cases
  // ---------------------------------------------------------------------

  /** A month entered in March ends on the 31st. */
  lemma MarchEndsOnThe31st(s: Date)
    requires IsPyDate(s) && s.month == 3
    ensures Resolve(MonthFrom(s)) == Ok(DateRange(s, Date(s.year, 3, 31)))
  {
    MonthRange(s);
  }

  /** A month entered in February ends on the 29th in leap years and the 28th otherwise. */
  lemma FebruaryEndsOnLeapDay(s: Date)
    requires IsPyDate(s) && s.month == 2
    ensures Resolve(MonthFrom(s)) == Ok(DateRange(s, Date(s.year, 2, if IsLeapYear(s.year) then 29 else 28)))
    ensures s.year == 2023 ==> Resolve(MonthFrom(s)).value.end.day == 28
    ensures s.year == 2024 ==> Resolve(MonthFrom(s)).value.end.day == 29
    ensures s.year == 1900 ==> Resolve(MonthFrom(s)).value.end.day == 28
    ensures s.year == 2000 ==> Resolve(MonthFrom(s)).value.end.day == 29
  {
    MonthRange(s);
  }

  /** May lies in the quarter starting April 1, and that quarter ends June 30. */
  lemma QuarterOfMay(today: Date)
    requires IsPyDate(today) && today.month == 5
    ensures QuarterStart(today) == Date(today.year, 4, 1)
    ensures Resolve(QuarterFrom(QuarterStart(today)))
         == Ok(DateRange(Date(today.year, 4, 1), Date(today.year, 6, 30)))
  {
    var q := QuarterStart(today);
    QuarterEndInRange(q);
    MonthsLaterSameYear(q.year, 4, 2);
    QuarterResolvesTo(q, Date(today.year, 6, 30));
  }

  /** An October start ends December 31 of the same year. */
  lemma QuarterFromOctober(s: Date)
    requires IsPyDate(s) && s.month == 10 && s.year < MaxYear
    ensures Resolve(QuarterFrom(s)) == Ok(DateRange(s, Date(s.year, 12, 31)))
  {
    MonthsLaterSameYear(s.year, 10, 2);
    QuarterEndsIn(s, s.year, 12);
  }

  /** A November start runs into January of the next year. */
  lemma QuarterFromNovember(s: Date)
    requires IsPyDate(s) && s.month == 11 && s.year < MaxYear
    ensures Resolve(QuarterFrom(s)) == Ok(DateRange(s, Date(s.year + 1, 1, 31)))
  {
    MonthsLaterNextYear(s.year, 11, 2);
    QuarterEndsIn(s, s.year + 1, 1);
  }

  /** A December start runs to the end of February of the next year. */
  lemma QuarterFromDecember(s: Date)
    requires IsPyDate(s) && s.month == 12 && s.year < MaxYear
    ensures Resolve(QuarterFrom(s)) == Ok(DateRange(s, LastDayOfMonth(s.year + 1, 2)))
  {
    MonthsLaterNextYear(s.year, 12, 2);
    QuarterEndsIn(s, s.year + 1, 2);
  }

  lemma QuarterEndsIn(s: Date, y: int, m: int)
    requires IsPyDate(s) && s.year < MaxYear && 1 <= m <= 12
    requires MonthsLater(s.year, s.month, 2) == (y, m)
    ensures Resolve(QuarterFrom(s)) == Ok(DateRange(s, LastDayOfMonth(y, m)))
  {
    QuarterEndInRange(s);
    QuarterResolvesTo(s, LastDayOfMonth(y, m));
  }
}

=== FILE: records.dfy ===
/**
 * The record filter of the dashboard (`filtrer_donnees`): the chosen date
 * column is reduced to plain dates, then the rows of one operator whose date
 * lies in the inclusive range are kept, in sheet order.
 */
module Records {
  import opened Calendar
  import Masking

  /** A cell of the chosen date column: a day and a time of day (any unit). */
  datatype Timestamp = Timestamp(date: Date, timeOfDay: nat)

  /**
   * One row of the intervention sheet as the filter reads it: the operator's
   * full name (column "Prénom et nom"), the cell of the chosen date column,
   * and the remaining cells, carried along untouched.
   */
  datatype Intervention = Intervention(operator: string, stamp: Timestamp, details: seq<string>)

  /** A row once its date column holds plain dates. */
  datatype DatedIntervention = DatedIntervention(operator: string, date: Date, details: seq<string>)

  /** Dropping the time of day from the date column of one row. */
  function Normalize(row: Intervention): DatedIntervention {
    DatedIntervention(row.operator, row.stamp.date, row.details)
  }

  /** `df[date_colonne] = pd.to_datetime(df[date_colonne]).dt.date`, row by row. */
  function NormalizeColumn(rows: seq<Intervention>): (r: seq<DatedIntervention>)
    ensures |r| == |rows|
    ensures forall i :: 0 <= i < |rows| ==> r[i] == Normalize(rows[i])
  {
    seq(|rows|, i requires 0 <= i < |rows| => Normalize(rows[i]))
  }

  /** A plain-date row read back as a timestamp at midnight, as re-parsing a date does. */
  function Reload(row: DatedIntervention): Intervention {
    Intervention(row.operator, Timestamp(row.date, 0), row.details)
  }

  function ReloadAll(rows: seq<DatedIntervention>): (r: seq<Intervention>)
    ensures |r| == |rows|
    ensures forall i :: 0 <= i < |rows| ==> Normalize(r[i]) == rows[i]
  {
    seq(|rows|, i requires 0 <= i < |rows| => Reload(rows[i]))
  }

  /** The mask of `filtrer_donnees`: exact operator name and date within the range, both ends included. */
  predicate Matches(row: DatedIntervention, operator: string, range: DateRange) {
    row.operator == operator && InRange(row.date, range)
  }

  function MatchesFor(operator: string, range: DateRange): DatedIntervention -> bool {
    row => Matches(row, operator, range)
  }

  /** `filtrer_donnees(df, operateur, date_colonne, date_debut, date_fin)`. */
  function FilterRows(rows: seq<Intervention>, operator: string, range: DateRange): (r: seq<DatedIntervention>)
    ensures |r| <= |rows|
    ensures forall k :: 0 <= k < |r| ==> r[k].operator == operator && InRange(r[k].date, range)
    ensures forall i :: 0 <= i < |rows| && Matches(Normalize(rows[i]), operator, range) ==>
              Normalize(rows[i]) in r
    ensures forall x :: x in r ==> exists i :: 0 <= i < |rows| && x == Normalize(rows[i])
  {
    var dated := NormalizeColumn(rows);
    var r := Masking.Mask(dated, MatchesFor(operator, range));
    assert forall x :: x in dated ==> exists i :: 0 <= i < |rows| && x == Normalize(rows[i]);
    r
  }

  /**
   * Reading the plain dates back as midnight timestamps and stripping the
   * time again gives the same rows.
   */
  lemma ReloadRoundTrip(rows: seq<DatedIntervention>)
    ensures NormalizeColumn(ReloadAll(rows)) == rows
  {
    assert forall i :: 0 <= i < |rows| ==> NormalizeColumn(ReloadAll(rows))[i] == rows[i];
  }

  /** Two sheets that agree on everything but the time of day in the date column. */
  predicate SameDays(a: seq<Intervention>, b: seq<Intervention>) {
    && |a| == |b|
    && forall i :: 0 <= i < |a| ==>
         a[i].operator == b[i].operator && a[i].stamp.date == b[i].stamp.date && a[i].details == b[i].details
  }

  /**
   * Only the day of a timestamp matters to the filter: sheets that differ in
   * times of day alone give the same result, so a row stamped late on the
   * range's last day is kept just like one stamped at midnight.
   */
  lemma TimeOfDayIgnored(a: seq<Intervention>, b: seq<Intervention>, operator: string, range: DateRange)
    requires SameDays(a, b)
    ensures FilterRows(a, operator, range) == FilterRows(b, operator, range)
  {
    assert NormalizeColumn(a) == NormalizeColumn(b) by {
      forall i | 0 <= i < |a|
        ensures NormalizeColumn(a)[i] == NormalizeColumn(b)[i]
      {
      }
    }
  }

  /**
   * In any sheet, a row of the operator stamped at any time on the last day
   * of a non-empty range is kept.
   */
  lemma LastDayKeptAtAnyTime(rows: seq<Intervention>, operator: string, range: DateRange)
    requires AtOrBefore(range.start, range.end)
    ensures forall i :: 0 <= i < |rows| && rows[i].operator == operator && rows[i].stamp.date == range.end ==>
              Normalize(rows[i]) in FilterRows(rows, operator, range)
  {
  }

  /**
   * The first and last days a nanosecond pandas `Timestamp` holds at
   * midnight: `Timestamp.min` is 1677-09-21 00:12:43 and `Timestamp.max`
   * 2262-04-11 23:47:16.
   */
  const FirstTimestampDate: Date := Date(1677, 9, 22)
  const LastTimestampDate: Date := Date(2262, 4, 11)

  /** `pd.to_datetime(d)` succeeds on a date exactly when it fits a `Timestamp`. */
  predicate FitsTimestamp(d: Date) {
    AtOrBefore(FirstTimestampDate, d) && AtOrBefore(d, LastTimestampDate)
  }

  /**
   * `filtrer_donnees` as a whole: converting the two bounds with
   * `pd.to_datetime` raises `OutOfBoundsDatetime` unless both fit a
   * `Timestamp`; otherwise the result is the filtered table.
   */
  function FilterData(rows: seq<Intervention>, operator: string, range: DateRange): (r: Result<seq<DatedIntervention>>)
    ensures r.Ok? <==> FitsTimestamp(range.start) && FitsTimestamp(range.end)
    ensures r.Err? ==> r.error == OutOfBoundsDatetime
    ensures r.Ok? ==> r.value == FilterRows(rows, operator, range)
    ensures r.Ok? ==>
              && |r.value| <= |rows|
              && (forall k :: 0 <= k < |r.value| ==> Matches(r.value[k], operator, range))
              && (forall i :: 0 <= i < |rows| && Matches(Normalize(rows[i]), operator, range) ==>
                    Normalize(rows[i]) in r.value)
  {
    if FitsTimestamp(range.start) && FitsTimestamp(range.end) then Ok(FilterRows(rows, operator, range))
    else Err(OutOfBoundsDatetime)
  }

  /**
   * The filtered table is exactly the matching rows in sheet order: there is
   * an increasing list of sheet positions, holding a position iff the row
   * there matches, and the k-th filtered row is the row at the k-th position.
   */
  lemma FilterSelectsMatchingRowsInOrder(rows: seq<Intervention>, operator: string, range: DateRange)
    ensures var r := FilterRows(rows, operator, range);
            var ix := Masking.KeptIndices(NormalizeColumn(rows), MatchesFor(operator, range));
            && |r| == |ix|
            && (forall k, l :: 0 <= k < l < |ix| ==> ix[k] < ix[l])
            && (forall k :: 0 <= k < |ix| ==> 0 <= ix[k] < |rows| && r[k] == Normalize(rows[ix[k]]))
            && (forall i :: 0 <= i < |rows| ==> (i in ix <==> Matches(Normalize(rows[i]), operator, range)))
  {
    var dated := NormalizeColumn(rows);
    var ix := Masking.KeptIndices(dated, MatchesFor(operator, range));
    Masking.MaskFollowsKeptIndices(dated, MatchesFor(operator, range));
    forall i | 0 <= i < |rows| && i in ix
      ensures Matches(Normalize(rows[i]), operator, range)
    {
      var k :| 0 <= k < |ix| && ix[k] == i;
    }
  }

  /**
   * Filtering an already filtered table again (its dates re-parsed) with the
   * same operator and range returns it unchanged.
   */
  lemma FilterIdempotent(rows: seq<Intervention>, operator: string, range: DateRange)
    ensures FilterRows(ReloadAll(FilterRows(rows, operator, range)), operator, range)
         == FilterRows(rows, operator, range)
  {
    var once := FilterRows(rows, operator, range);
    ReloadRoundTrip(once);
    Masking.MaskKeepsAll(once, MatchesFor(operator, range));
  }

  /** A range whose end precedes its start, which a custom period allows, keeps no row. */
  lemma InvertedRangeKeepsNothing(rows: seq<Intervention>, operator: string, range: DateRange)
    requires Before(range.end, range.start)
    ensures FilterRows(rows, operator, range) == []
  {
    Masking.MaskKeepsNone(NormalizeColumn(rows), MatchesFor(operator, range));
  }

  /**
   * A row dated before the start of the range never survives, whoever it
   * belongs to and whatever the other rows are; a sheet of such rows only
   * filters to nothing.
   */
  lemma EarlierRowsExcluded(rows: seq<Intervention>, operator: string, range: DateRange)
    ensures forall i :: 0 <= i < |rows| && Before(rows[i].stamp.date, range.start) ==>
              Normalize(rows[i]) !in FilterRows(rows, operator, range)
    ensures (forall i :: 0 <= i < |rows| ==> Before(rows[i].stamp.date, range.start)) ==>
              FilterRows(rows, operator, range) == []
  {
    if forall i :: 0 <= i < |rows| ==> Before(rows[i].stamp.date, range.start) {
      Masking.MaskKeepsNone(NormalizeColumn(rows), MatchesFor(operator, range));
    }
  }

  /**
   * A row of another operator never survives, whatever its date and
   * whatever the other rows are; a sheet without the operator filters to
   * nothing.
   */
  lemma OtherOperatorsExcluded(rows: seq<Intervention>, operator: string, range: DateRange)
    ensures forall i :: 0 <= i < |rows| && rows[i].operator != operator ==>
              Normalize(rows[i]) !in FilterRows(rows, operator, range)
    ensures (forall i :: 0 <= i < |rows| ==> rows[i].operator != operator) ==>
              FilterRows(rows, operator, range) == []
  {
    if forall i :: 0 <= i < |rows| ==> rows[i].operator != operator {
      Masking.MaskKeepsNone(NormalizeColumn(rows), MatchesFor(operator, range));
    }
  }
}

=== FILE: sampling.dfy ===
/**
 * The spot check of the dashboard: two filtered rows drawn at random with
 * `df_filtre.sample(n=2)` when there are at least two, and the "not enough
 * data" message otherwise.
 *
 * The random source is a parameter: `DrawTwo` maps its values onto ordered
 * pairs of distinct positions, and `EveryPairCanBeDrawn` proves that every
 * such pair is drawn by some value, so the model restricts nothing the
 * sampler can do.
 */
module Sampling {

  /** The positions drawn, in draw order, or the branch taken when fewer than two rows exist. */
  datatype Draw = NotEnoughData | Drawn(first: nat, second: nat)

  /** The minimum number of rows for which the dashboard draws a sample. */
  const SampleSize: nat := 2

  /**
   * `df_filtre.sample(n=2)` on `n` rows. The random source is given as two
   * numbers: `pick` chooses the first row, `skip` how far past it (wrapping
   * around) the second row lies.
   */
  function DrawTwo(n: nat, pick: nat, skip: nat): (r: Draw)
    ensures r.NotEnoughData? <==> n < SampleSize
    ensures r.Drawn? ==> r.first < n && r.second < n && r.first != r.second
  {
    if n < SampleSize then NotEnoughData
    else
      var i := pick % n;
      var c := skip % (n - 1) + 1;
      ShiftedIndexDiffers(n, i, c);
      Drawn(i, (i + c) % n)
  }

  /** Moving forward by 1 to n - 1 places, wrapping around, never comes back to the start. */
  lemma ShiftedIndexDiffers(n: nat, i: nat, c: nat)
    requires i < n && 1 <= c < n
    ensures (i + c) % n == if i + c < n then i + c else i + c - n
    ensures (i + c) % n != i
  {
    if i + c < n {
      SmallMod(n, i + c);
    } else {
      WrapOnce(n, i + c);
    }
  }

  lemma SmallMod(n: nat, x: int)
    requires 0 <= x < n
    ensures x % n == x
  {
    var q := x / n;
    assert x == q * n + x % n;
  }

  lemma WrapOnce(n: nat, x: int)
    requires 0 < n <= x < 2 * n
    ensures x % n == x - n
  {
    SmallMod(n, x - n);
    assert (x - n) % n == x % n;
  }

  /** Every ordered pair of distinct positions is drawn by some value of the random source. */
  lemma EveryPairCanBeDrawn(n: nat, i: nat, j: nat)
    requires 2 <= n && i < n && j < n && i != j
    ensures exists pick: nat, skip: nat :: DrawTwo(n, pick, skip) == Drawn(i, j)
  {
    var skip: nat := if j > i then j - i - 1 else j + n - i - 1;
    SmallMod(n, i);
    SmallMod(n - 1, skip);
    ShiftedIndexDiffers(n, i, skip + 1);
    assert DrawTwo(n, i, skip) == Drawn(i, j);
  }
}

=== FILE: tally.dfy ===
/**
 * The count table behind the repetitions chart:
 * `df_filtre.groupby(df_filtre[date_colonne]).size()`. One bucket per
 * distinct date of the filtered rows, in ascending date order (groupby sorts
 * its keys), each holding how many rows carry that date.
 *
 * The table is built by inserting the rows' dates one at a time into a
 * sorted table; its reference partner is `Occurrences`, a plain count of the
 * rows carrying a date.
 */
module Tally {
  import opened Calendar
  import opened Records

  /** One bar of the chart: a date and its number of repetitions. */
  datatype Bucket = Bucket(date: Date, count: nat)

  /** How many rows carry date `d`. */
  function Occurrences(rows: seq<DatedIntervention>, d: Date): nat
    decreases |rows|
  {
    if |rows| == 0 then 0
    else Occurrences(rows[..|rows| - 1], d) + (if rows[|rows| - 1].date == d then 1 else 0)
  }

  function DatesOf(rows: seq<DatedIntervention>): set<Date> {
    set i | 0 <= i < |rows| :: rows[i].date
  }

  function Keys(t: seq<Bucket>): set<Date> {
    set k | 0 <= k < |t| :: t[k].date
  }

  /** Dates strictly increase along the table, so no date has two buckets. */
  predicate Ascending(t: seq<Bucket>) {
    forall i, j :: 0 <= i < j < |t| ==> Before(t[i].date, t[j].date)
  }

  predicate AllPositive(t: seq<Bucket>) {
    forall k :: 0 <= k < |t| ==> t[k].count >= 1
  }

  function SumCounts(t: seq<Bucket>): nat {
    if |t| == 0 then 0 else t[0].count + SumCounts(t[1..])
  }

  /** The count the table gives date `d`, 0 when it has no bucket for it. */
  function CountOf(t: seq<Bucket>, d: Date): nat {
    if |t| == 0 then 0
    else if t[0].date == d then t[0].count
    else CountOf(t[1..], d)
  }

  lemma KeysOfCons(b: Bucket, t: seq<Bucket>)
    ensures Keys([b] + t) == {b.date} + Keys(t)
  {
    var s := [b] + t;
    forall x | x in Keys(s)
      ensures x in {b.date} + Keys(t)
    {
      var k :| 0 <= k < |s| && s[k].date == x;
      if k > 0 {
        assert t[k - 1].date == x;
      }
    }
    forall x | x in Keys(t)
      ensures x in Keys(s)
    {
      var k :| 0 <= k < |t| && t[k].date == x;
      assert s[k + 1].date == x;
    }
    assert s[0].date == b.date;
  }

  lemma {:induction false} CountOfAbsent(t: seq<Bucket>, d: Date)
    requires d !in Keys(t)
    ensures CountOf(t, d) == 0
    decreases |t|
  {
    if |t| > 0 {
      KeysOfCons(t[0], t[1..]);
      assert [t[0]] + t[1..] == t;
      CountOfAbsent(t[1..], d);
    }
  }

  /** Counting one more occurrence of `d` into a sorted table. */
  function Insert(t: seq<Bucket>, d: Date): (r: seq<Bucket>)
    requires Ascending(t) && AllPositive(t)
    ensures Ascending(r) && AllPositive(r)
    ensures Keys(r) == Keys(t) + {d}
    ensures SumCounts(r) == SumCounts(t) + 1
    ensures forall e :: CountOf(r, e) == CountOf(t, e) + (if e == d then 1 else 0)
    decreases |t|
  {
    if |t| == 0 then
      [Bucket(d, 1)]
    else if t[0].date == d then
      BumpFirst(t);
      [Bucket(d, t[0].count + 1)] + t[1..]
    else if Before(d, t[0].date) then
      PrependBefore(t, d);
      [Bucket(d, 1)] + t
    else
      var rest := Insert(t[1..], d);
      KeepFirst(t, d, rest);
      [t[0]] + rest
  }

  lemma BumpFirst(t: seq<Bucket>)
    requires Ascending(t) && AllPositive(t) && |t| > 0
    ensures var r := [Bucket(t[0].date, t[0].count + 1)] + t[1..];
            && Ascending(r) && AllPositive(r)
            && Keys(r) == Keys(t)
            && SumCounts(r) == SumCounts(t) + 1
            && forall e :: CountOf(r, e) == CountOf(t, e) + (if e == t[0].date then 1 else 0)
  {
    var r := [Bucket(t[0].date, t[0].count + 1)] + t[1..];
    KeysOfCons(t[0], t[1..]);
    KeysOfCons(r[0], t[1..]);
    assert [t[0]] + t[1..] == t;
    assert r[1..] == t[1..];
  }

  lemma PrependBefore(t: seq<Bucket>, d: Date)
    requires Ascending(t) && AllPositive(t) && |t| > 0 && Before(d, t[0].date)
    ensures var r := [Bucket(d, 1)] + t;
            && Ascending(r) && AllPositive(r)
            && Keys(r) == Keys(t) + {d}
            && SumCounts(r) == SumCounts(t) + 1
            && forall e :: CountOf(r, e) == CountOf(t, e) + (if e == d then 1 else 0)
  {
    var r := [Bucket(d, 1)] + t;
    KeysOfCons(Bucket(d, 1), t);
    assert r[1..] == t;
    forall k | 0 <= k < |t|
      ensures Before(d, t[k].date)
    {
      if k > 0 {
        assert Before(t[0].date, t[k].date);
      }
    }
    assert d !in Keys(t);
    CountOfAbsent(t, d);
  }

  lemma KeepFirst(t: seq<Bucket>, d: Date, rest: seq<Bucket>)
    requires Ascending(t) && AllPositive(t) && |t| > 0 && Before(t[0].date, d)
    requires Ascending(rest) && AllPositive(rest)
    requires Keys(rest) == Keys(t[1..]) + {d}
    requires SumCounts(rest) == SumCounts(t[1..]) + 1
    requires forall e :: CountOf(rest, e) == CountOf(t[1..], e) + (if e == d then 1 else 0)
    ensures var r := [t[0]] + rest;
            && Ascending(r) && AllPositive(r)
            && Keys(r) == Keys(t) + {d}
            && SumCounts(r) == SumCounts(t) + 1
            && forall e :: CountOf(r, e) == CountOf(t, e) + (if e == d then 1 else 0)
  {
    HeadPrecedes(t, d, rest);
    ConsAscending(t[0], rest);
    ConsCounts(t[0], rest);
    ConsCounts(t[0], t[1..]);
    KeysOfCons(t[0], t[1..]);
    KeysOfCons(t[0], rest);
    assert [t[0]] + t[1..] == t;
  }

  lemma HeadPrecedes(t: seq<Bucket>, d: Date, rest: seq<Bucket>)
    requires Ascending(t) && |t| > 0 && Before(t[0].date, d)
    requires Keys(rest) == Keys(t[1..]) + {d}
    ensures forall x :: x in Keys(rest) ==> Before(t[0].date, x)
  {
    forall x | x in Keys(rest)
      ensures Before(t[0].date, x)
    {
      if x != d {
        var j :| 0 <= j < |t[1..]| && t[1..][j].date == x;
        assert t[j + 1] == t[1..][j];
      }
    }
  }

  lemma ConsAscending(b: Bucket, t: seq<Bucket>)
    requires Ascending(t)
    requires forall x :: x in Keys(t) ==> Before(b.date, x)
    ensures Ascending([b] + t)
  {
    var r := [b] + t;
    forall i, j | 0 <= i < j < |r|
      ensures Before(r[i].date, r[j].date)
    {
      assert r[j] == t[j - 1];
      assert t[j - 1].date in Keys(t);
      if i > 0 {
        assert r[i] == t[i - 1];
      }
    }
  }

  lemma ConsCounts(b: Bucket, t: seq<Bucket>)
    ensures SumCounts([b] + t) == b.count + SumCounts(t)
    ensures forall e :: CountOf([b] + t, e) == if e == b.date then b.count else CountOf(t, e)
  {
    assert ([b] + t)[1..] == t;
  }

  /** `groupby(date).size()` over the filtered rows. */
  function CountByDate(rows: seq<DatedIntervention>): (t: seq<Bucket>)
    ensures Ascending(t) && AllPositive(t)
    ensures Keys(t) == DatesOf(rows)
    ensures forall d :: CountOf(t, d) == Occurrences(rows, d)
    ensures SumCounts(t) == |rows|
    decreases |rows|
  {
    if |rows| == 0 then []
    else
      var init := rows[..|rows| - 1];
      var last := rows[|rows| - 1];
      assert DatesOf(rows) == DatesOf(init) + {last.date} by {
        assert forall i :: 0 <= i < |init| ==> init[i] == rows[i];
      }
      Insert(CountByDate(init), last.date)
  }

  /** In a sorted table the bucket at position k is the one `CountOf` finds. */
  lemma {:induction false} CountOfFindsBucket(t: seq<Bucket>, k: int)
    requires Ascending(t) && 0 <= k < |t|
    ensures CountOf(t, t[k].date) == t[k].count
    decreases k
  {
    if k > 0 {
      assert Before(t[0].date, t[k].date);
      assert t[1..][k - 1] == t[k];
      CountOfFindsBucket(t[1..], k - 1);
    }
  }

  /**
   * The chart has one bar per distinct filtered date, in ascending order;
   * each bar counts exactly the rows of its date and is at least 1; the bars
   * add up to the number of filtered rows.
   */
  lemma ChartCountsEachDate(rows: seq<DatedIntervention>)
    ensures var t := CountByDate(rows);
            && Ascending(t)
            && Keys(t) == DatesOf(rows)
            && (forall k :: 0 <= k < |t| ==> 1 <= t[k].count == Occurrences(rows, t[k].date))
            && SumCounts(t) == |rows|
  {
    var t := CountByDate(rows);
    forall k | 0 <= k < |t|
      ensures t[k].count == Occurrences(rows, t[k].date)
    {
      CountOfFindsBucket(t, k);
    }
  }
}
